=== FILE: README.md ===
# thread_comm: circular queue and channel, modelled in Dafny

This project models the two class templates of `include/thread_comm.h`:

- `circular_queue<T>` is a fixed-capacity ring buffer of move-only `std::unique_ptr<T>` handles. It offers blocking, non-blocking (`try_*`) and timed variants of `write` and `read`, plus `msg_count`.
- `channel<T>` is a bidirectional medium built from two circular queues and four sets of thread identities. The sets are read owners, write owners, non-readers and non-writers. Each read or write goes to one of the two queues, chosen by the caller's owner-set membership. Renouncing a direction (`become_a_non_reader` / `become_a_non_writer`) is permanent. A renounced thread that later reads, writes or re-claims ownership hits a fatal `abort()`.

The model is sequential. Each queue operation is one atomic step, taken while holding the queue's mutex and after its wait predicate has been evaluated. A channel has no mutex of its own. A channel call first consults the role sets, each under that set's own lock, and then performs one queue operation under that queue's mutex. Treating the call as one step is still sound, because only the calling thread ever changes its own memberships. So the routing decision cannot go stale before the queue operation runs.

- Blocking operations require their predicate: `count < size` to write, `count > 0` to read.
- `try_*` branches on the predicate.
- A timed operation is given the queue state at the moment its wait returned. `condition_variable::wait_for` with a predicate returns the predicate's value when the deadline passes. So whether a timed call timed out is a function of that state, and no separate "in time" flag is needed.

Modules:

- `Outcomes` (`outcomes.dfy`):
  - `Handle<T>` models `unique_ptr<T>`. `Null` is an ordinary payload, used by the demo programs as the shutdown sentinel.
  - `Fatal<R>` is either `Abort` or `Ok(value)`. `Abort` stands for "no object and no further progress". That is either an explicit `std::abort()`, or an exception the library itself does not catch. Unless the caller catches that exception, `std::terminate` ends the process.
- `CTypes` (`ctypes.dfy`): the C++ `int` constructor arguments and their conversion to `std::size_t`, which wraps modulo 2^64.
- `CircularQueue` (`circular_queue.dfy`): the queue as a value.
  - Its fields are the C++ fields.
  - `Valid` is the ring invariant: indices below `size`, `count <= size`, the write index `count` places after the read index, and every slot outside the occupied window empty.
  - The ghost `Contents` is the sequence of queued payloads, oldest first.
- `QueueTraces` (`queue_traces.dfy`): runs of arbitrarily interleaved writes and reads. This is where FIFO order, no loss and no duplication, and exact capacity are proved.
- `RingBuffer` (`ring_buffer.dfy`): the same queue as a mutable object over an array of slots with a ghost `contents` sequence. Each method is proved to move the object along the matching `CircularQueue` step.
- `Channel` (`channel.dfy`): the channel as a value.
  - The caller's thread identity is an explicit `Tid` parameter.
  - `up` is the source's `worker_to_read_owner_queue`; `down` is `write_owner_to_worker_queue`.
  - `thr_safe_set` becomes a plain `set<Tid>`: `present`, `add` and `remove` are `in`, `+ {t}` and `- {t}`.
- `ChannelTraces` (`channel_traces.dfy`): runs of calls from any threads. This is where the role protocol is proved: renouncement is permanent, a renounced direction aborts, owners and renouncers stay apart, and a call changes only its caller's memberships. It also proves the owner/worker routing.

Three behaviours of the code are easy to miss:

- `read_msg_count` and `write_msg_count` do not call `assert_read_allowance` / `assert_write_allowance`. So a renounced thread may still query counts. In the model they return a plain `nat` and never abort.
- The constructors take a C++ `int`, not an unsigned capacity. An argument of 0 hits the explicit `abort()`. A negative argument gets past that check, because it is converted to a `std::size_t` of at least 2^63. But then allocating the slot vector (include/thread_comm.h:133) throws `std::length_error`: the size exceeds `max_size()`, which is `(2^63 - 1) / 8` in libstdc++ and below 2^63 in any standard library. The library does not catch the exception. Unless the caller does, the process ends anyway, and either way no object is constructed. In the model, then, a queue size aborts exactly when it is not positive. For a channel, that means `read_q_size <= 0` or `write_q_size < 0`.
- `try_reading` returns Null both when the queue is empty and when the message it takes is itself Null. The caller cannot tell the two apart (`QueueTraces.TryReadingNullIsAmbiguous`).

## Model

| member | source | states |
|---|---|---|
| CTypes.ToSizeT | include/thread_comm.h:118-119 | converting the `int` argument to `std::size_t` keeps it congruent modulo 2^64, stays below 2^64, and gives 0 exactly for 0 |
| CircularQueue.New | include/thread_comm.h:118-134 | the process ends exactly for a size that is not positive: 0 by the explicit abort, a negative size by the vector allocation throwing; any positive size yields a valid, empty queue of that capacity with both indices 0 |
| CircularQueue.DefaultQueue | include/thread_comm.h:118 | `circular_queue<T> q;` holds exactly one message |
| CircularQueue.WriteIndexIsModular | include/thread_comm.h:80-86 | in every valid queue `write_index == (read_index + count) % size` |
| CircularQueue.WrapIsModulo | include/thread_comm.h:82-84 | resetting an index to 0 when it reaches `size` is the remainder modulo `size` |
| CircularQueue.Write | include/thread_comm.h:66-89 | once there is room, a write keeps the ring invariant, appends the message to the contents, raises `count` by one and leaves the caller's handle Null |
| CircularQueue.WriteKeepsRing | include/thread_comm.h:80-86 | the store, index wrap and increment keep the ring invariant and append exactly the stored message |
| CircularQueue.Read | include/thread_comm.h:91-115 | once a message is queued, a read returns the oldest message, removes it from the contents, lowers `count` by one and empties its slot |
| CircularQueue.ReadKeepsRing | include/thread_comm.h:104-110 | the take, index wrap and decrement keep the ring invariant and drop exactly the head of the contents |
| CircularQueue.TryWriting | include/thread_comm.h:183-190 | succeeds iff `count < size`, always keeping the capacity; on success it is exactly the `write` step, appending the message and nulling the caller's handle; on failure the queue is unchanged and the message stays with the caller |
| CircularQueue.TryReading | include/thread_comm.h:192-199 | keeps the capacity; on a non-empty queue it is exactly the `read` step, returning and removing the head; on an empty queue it returns Null and changes nothing |
| CircularQueue.TimedWrite | include/thread_comm.h:161-169 | reports a timeout iff the queue is still full when the wait returns; a timeout changes nothing and leaves the message with the caller; otherwise it is exactly the `write` step; the capacity is always kept |
| CircularQueue.TimedRead | include/thread_comm.h:171-181 | sets `timed_out` iff the queue is still empty when the wait returns; a timeout returns Null and changes nothing; otherwise it is exactly the `read` step; the capacity is always kept |
| CircularQueue.MsgCount | include/thread_comm.h:201-204 | the count is the length of the abstract contents and never exceeds the capacity |
| QueueTraces.Step | include/thread_comm.h:151-199 | a write is accepted iff there is room, which raises `count` by one; a read delivers iff a message is queued; a call that cannot proceed changes nothing |
| QueueTraces.StepBalance | include/thread_comm.h:66-115 | one call keeps "delivered ++ contents after == contents before ++ accepted" |
| QueueTraces.Run | include/thread_comm.h:66-115 | every interleaving of writes and reads keeps the ring invariant and the capacity |
| QueueTraces.NoLossNoDuplication | include/thread_comm.h:66-115 | over any run, the messages delivered followed by those still queued are exactly the messages queued before followed by those accepted, in order; occupancy equals accepted writes minus delivered reads |
| QueueTraces.PutsWhileRoom | include/thread_comm.h:70 | as long as there is room, every write in a row goes through without waiting |
| QueueTraces.PutsAppend | include/thread_comm.h:80-86 | those writes append their messages, in order, to the contents |
| QueueTraces.TakesInOrder | include/thread_comm.h:95-110 | reading n times from a queue holding at least n messages returns its first n messages, oldest first |
| QueueTraces.Fifo | include/thread_comm.h:80-110 | writing messages into an empty queue with room for all of them and then reading as many back returns them in the order written and leaves the queue empty |
| QueueTraces.CapacityIsExact | test/tests.cpp:185-269 | a new queue of capacity N takes N writes without waiting and the next write waits (or fails for the try and timed variants) |
| QueueTraces.WriteTargetIsEmpty | include/thread_comm.h:80 | the slot a write fills is always empty, so the move-assignment never destroys an undelivered message |
| QueueTraces.TryWritingFillsThenRefuses | test/tests.cpp:357-367 | on a new queue of capacity 1, a first `try_writing` is accepted, and a second is refused with the queue unchanged and the message left with the caller |
| QueueTraces.TryReadingNullIsAmbiguous | include/thread_comm.h:192-199 | a Null from `try_reading` can mean "queue was empty, nothing changed" or "took a Null message" |
| RingBuffer.Buffer.Create | include/thread_comm.h:118-134 | the array-backed queue ends the process exactly for a size that is not positive, and otherwise is a fresh object over a fresh array, valid and empty, with that capacity |
| RingBuffer.Buffer.Write | include/thread_comm.h:80-88 | the in-place write is exactly the `CircularQueue.Write` step and appends to the ghost contents |
| RingBuffer.Buffer.Read | include/thread_comm.h:104-114 | the in-place read is exactly the `CircularQueue.Read` step and returns the head of the ghost contents |
| RingBuffer.Buffer.TryWriting | include/thread_comm.h:183-190 | accepted iff there was room; on success the object takes exactly the `CircularQueue.Write` step; on failure the object and its contents are unchanged and the message stays with the caller |
| RingBuffer.Buffer.TryReading | include/thread_comm.h:192-199 | when a message is queued the object takes exactly the `CircularQueue.Read` step and returns its head; otherwise Null with the object unchanged |
| RingBuffer.Buffer.TimedWrite | include/thread_comm.h:161-169 | times out iff full when the wait returns, with no change; otherwise the object takes exactly the `CircularQueue.Write` step |
| RingBuffer.Buffer.TimedRead | include/thread_comm.h:171-181 | times out iff empty when the wait returns, returning Null with no change; otherwise the object takes exactly the `CircularQueue.Read` step |
| RingBuffer.Buffer.MsgCount | include/thread_comm.h:201-204 | the count equals the length of the ghost contents and never exceeds the capacity |
| Channel.New | include/thread_comm.h:284-290 | the creator is the only read and write owner; nobody has renounced; `up` gets `read_q_size` slots; `down` gets `write_q_size`, or `read_q_size` when that is 0; the process ends exactly when `read_q_size <= 0` or `write_q_size < 0` |
| Channel.DefaultChannel | include/thread_comm.h:284 | `channel<T> c;` has one slot in each direction |
| Channel.Read | include/thread_comm.h:303-312 | aborts iff the caller is a non-reader; otherwise it takes the head of `up` for a read owner and of `down` for anyone else, leaving the other queue, both capacities and all roles unchanged |
| Channel.Write | include/thread_comm.h:314-323 | aborts iff the caller is a non-writer; otherwise it appends to `down` for a write owner and to `up` for anyone else, leaving the other queue, both capacities and all roles unchanged |
| Channel.TryReading | include/thread_comm.h:333-342 | same allowance check and routing as `read`; on an empty routed queue it returns Null with no change, otherwise it behaves exactly like `read` |
| Channel.TimedRead | include/thread_comm.h:344-355 | same allowance check and routing; times out iff the routed queue is empty, with no change; otherwise it behaves exactly like `read` |
| Channel.ReadMsgCount | include/thread_comm.h:357-363 | never aborts; gives the occupancy of `up` for a read owner and of `down` for anyone else |
| Channel.TryWriting | include/thread_comm.h:365-374 | same allowance check and routing as `write`; accepted iff the routed queue has room; on failure nothing changes and the message stays with the caller; otherwise it behaves exactly like `write` |
| Channel.TimedWrite | include/thread_comm.h:376-386 | same allowance check and routing; times out iff the routed queue is full, with no change; otherwise it behaves exactly like `write` |
| Channel.WriteMsgCount | include/thread_comm.h:388-394 | never aborts; gives the occupancy of `down` for a write owner and of `up` for anyone else |
| Channel.BecomeNonReader | include/thread_comm.h:396-399 | the caller leaves the read owners and joins the non-readers; no other membership, set or queue changes |
| Channel.BecomeNonWriter | include/thread_comm.h:401-404 | the caller leaves the write owners and joins the non-writers; nothing else changes |
| Channel.BecomeReadOwner | include/thread_comm.h:406-410 | aborts iff the caller is a non-reader; otherwise only the caller joins the read owners |
| Channel.BecomeWriteOwner | include/thread_comm.h:412-416 | aborts iff the caller is a non-writer; otherwise only the caller joins the write owners |
| ChannelTraces.ApplyRead | include/thread_comm.h:303-363 | a read-side call aborts iff it checks read allowance and the caller is a non-reader; otherwise it keeps both queues valid and all roles unchanged |
| ChannelTraces.ApplyWrite | include/thread_comm.h:365-394 | a write-side call aborts iff it checks write allowance and the caller is a non-writer; otherwise it keeps both queues valid and all roles unchanged |
| ChannelTraces.ApplyRole | include/thread_comm.h:396-416 | a role call aborts only when re-claiming a renounced direction; otherwise it keeps renouncements and owner/renouncer separation, changes only the caller's memberships, and never touches the queues |
| ChannelTraces.Apply | include/thread_comm.h:267-281 | any call aborts exactly when it checks an allowance its caller has renounced; otherwise renouncements are kept, owners and renouncers stay apart, and only the caller's memberships change |
| ChannelTraces.Run | include/thread_comm.h:303-416 | any run of calls that does not abort keeps both queues valid |
| ChannelTraces.RenunciationIsPermanent | include/thread_comm.h:396-416 | over any run, the non-reader and non-writer sets only grow, and owners and renouncers stay apart |
| ChannelTraces.RenouncedReaderAborts | include/thread_comm.h:267-273 | once a thread is a non-reader, any run in which it later reads (blocking, try or timed) or claims read ownership aborts |
| ChannelTraces.RenouncedWriterAborts | include/thread_comm.h:275-281 | once a thread is a non-writer, any run in which it later writes or claims write ownership aborts |
| ChannelTraces.AfterBecomeNonReader | include/thread_comm.h:396-399 | after `become_a_non_reader`, whatever runs next, the caller stays a non-reader and never owns reading again, and any later read-allowance call by it aborts |
| ChannelTraces.AfterBecomeNonWriter | include/thread_comm.h:401-404 | the writer-side counterpart of the previous row |
| ChannelTraces.ReachableRolesConsistent | include/thread_comm.h:284-290 | every channel reachable from construction keeps owners and renouncers apart |
| ChannelTraces.BecomeNonReaderIdempotent | include/thread_comm.h:396-399 | calling `become_a_non_reader` twice equals calling it once |
| ChannelTraces.BecomeNonWriterIdempotent | include/thread_comm.h:401-404 | calling `become_a_non_writer` twice equals calling it once |
| ChannelTraces.OwnerToWorker | include/thread_comm.h:314-319 | a message a write owner sends into an empty `down` is what the next read by a thread without read ownership returns |
| ChannelTraces.WorkerToOwner | include/thread_comm.h:303-321 | a message a thread without write ownership sends into an empty `up` is what the next read by a read owner returns |
| ChannelTraces.CapacitySplit | test/tests.cpp:439-509 | in `channel(1, 2)` the owner's first two writes go through, its third waits, and a worker's read count is 2 |

## Left out

- Mutexes, condition variables, `shared_mutex` and the `notify_one` wake-ups. Each operation is one atomic step after its wait predicate holds. Blocking, wake-up order and fairness among waiters are not modelled.
- Real time and `std::chrono` durations. A timed call is given the queue state at the instant its wait returned. Nothing here says that at least the requested duration elapsed before a timeout.
- The move-assignment operators (include/thread_comm.h:136-149, 292-301). They move the whole state of another object into this one, without locking: the queue's indices, count, capacity and slots, or the channel's role sets and both queues. The model's values are immutable, so such a transfer is just using the other value.
- The stream operators (include/thread_comm.h:206-224, 325-331, 419-428). They are aliases: `<<` on a queue or channel is `write`, `>>` into a handle is `read`, and the free-standing overloads mirror them.
- The `std::cerr` diagnostics printed before each `abort()`.
- CircularQueue.New, Channel.New, RingBuffer.Buffer.Create: a caller that catches the `std::length_error` thrown for a negative size keeps running without the object. The model has no exception path, so it folds that case into `Abort`, which produces no object either.
- Running out of memory while allocating the slot vector for a positive size. That throws `std::bad_alloc` depending on the machine. The model treats every positive size as allocatable.
- Destruction of a queue or channel, which releases any messages still queued.
- The locking inside `thr_safe_set`. It becomes a plain `set<Tid>`.
- The demo programs and the test harness. They appear here only as sources for scenario lemmas.

=== FILE: channel.dfy ===
/** The bidirectional `thread_comm::channel<T>` (include/thread_comm.h:227-417)
    as a sequential state machine over the caller's thread identity.

    A channel holds two circular queues, `up` (the source's
    `worker_to_read_owner_queue`) and `down` (`write_owner_to_worker_queue`),
    and four sets of thread identities. Every operation receives the
    calling thread's identity explicitly. Reads and writes first check the
    caller against `nonReaders` / `nonWriters`, where a hit is the fatal
    `abort()`, and then route to one of the two queues by owner-set
    membership: read owners read `up` and everybody else reads `down`;
    write owners write `down` and everybody else writes `up`. */
module Channel {
  import opened Outcomes
  import opened CTypes
  import CQ = CircularQueue

  /** An opaque `std::thread::id`. */
  type Tid = nat

  datatype Chan<T> = Chan(
    readOwners: set<Tid>,
    writeOwners: set<Tid>,
    nonReaders: set<Tid>,
    nonWriters: set<Tid>,
    up: CQ.Queue<T>,
    down: CQ.Queue<T>)

  /** A channel and a handle after a read (the message returned) or a
      write (the caller's handle afterwards). */
  datatype Moved<T> = Moved(chan: Chan<T>, handle: Handle<T>)

  /** The outcome of `try_writing` / `timed_write`. */
  datatype Offered<T> = Offered(accepted: bool, chan: Chan<T>, handle: Handle<T>)

  /** The outcome of `timed_read`, with its `timed_out` flag. */
  datatype Waited<T> = Waited(timedOut: bool, chan: Chan<T>, handle: Handle<T>)

  /** Both queues satisfy the ring invariant. */
  ghost predicate Valid<T>(c: Chan<T>) {
    CQ.Valid(c.up) && CQ.Valid(c.down)
  }

  /** No thread is both an owner and a renouncer of the same direction. */
  ghost predicate RolesConsistent<T>(c: Chan<T>) {
    c.readOwners !! c.nonReaders && c.writeOwners !! c.nonWriters
  }

  /** The four role sets of `c` and `c'` agree. */
  ghost predicate SameRoles<T>(c: Chan<T>, c': Chan<T>) {
    && c'.readOwners == c.readOwners
    && c'.writeOwners == c.writeOwners
    && c'.nonReaders == c.nonReaders
    && c'.nonWriters == c.nonWriters
  }

  /** The queue a read by `t` uses. */
  function ReadQueue<T>(c: Chan<T>, t: Tid): CQ.Queue<T> {
    if t in c.readOwners then c.up else c.down
  }

  /** The queue a write by `t` uses. */
  function WriteQueue<T>(c: Chan<T>, t: Tid): CQ.Queue<T> {
    if t in c.writeOwners then c.down else c.up
  }

  /** `c` with the queue a read by `t` uses replaced by `q`. */
  function WithReadQueue<T>(c: Chan<T>, t: Tid, q: CQ.Queue<T>): Chan<T> {
    if t in c.readOwners then c.(up := q) else c.(down := q)
  }

  /** `c` with the queue a write by `t` uses replaced by `q`. */
  function WithWriteQueue<T>(c: Chan<T>, t: Tid, q: CQ.Queue<T>): Chan<T> {
    if t in c.writeOwners then c.(down := q) else c.(up := q)
  }

  /** The constructor's default arguments. */
  const DEFAULT_READ_Q_SIZE: Int32 := 1
  const DEFAULT_WRITE_Q_SIZE: Int32 := 0

  /** The constructor `channel(int read_q_size, int write_q_size)` run by
      thread `creator`: the creator owns both directions, nobody has
      renounced anything, `up` gets `read_q_size` slots and `down` gets
      `write_q_size`, or `read_q_size` when that is 0. Each queue's own
      constructor ends the process for a size that is not positive. */
  function New<T>(creator: Tid, readQSize: Int32, writeQSize: Int32): (r: Fatal<Chan<T>>)
    ensures r.Abort? <==> readQSize <= 0 || writeQSize < 0
    ensures r.Ok? ==> Valid(r.value) && RolesConsistent(r.value)
    ensures r.Ok? ==> r.value.readOwners == {creator} && r.value.writeOwners == {creator}
    ensures r.Ok? ==> r.value.nonReaders == {} && r.value.nonWriters == {}
    ensures r.Ok? ==> CQ.Contents(r.value.up) == [] && CQ.Contents(r.value.down) == []
    ensures r.Ok? ==> r.value.up.size == readQSize
    ensures r.Ok? && writeQSize == 0 ==> r.value.down.size == readQSize
    ensures r.Ok? && writeQSize != 0 ==> r.value.down.size == writeQSize
  {
    var up := CQ.New<T>(readQSize);
    var down := CQ.New<T>(if writeQSize == 0 then readQSize else writeQSize);
    if up.Abort? || down.Abort? then Abort
    else Ok(Chan({creator}, {creator}, {}, {}, up.value, down.value))
  }

  /** `channel<T> c;`: one slot in each direction. */
  lemma DefaultChannel<T>(creator: Tid)
    ensures New<T>(creator, DEFAULT_READ_Q_SIZE, DEFAULT_WRITE_Q_SIZE).Ok?
    ensures New<T>(creator, DEFAULT_READ_Q_SIZE, DEFAULT_WRITE_Q_SIZE).value.up.size == 1
    ensures New<T>(creator, DEFAULT_READ_Q_SIZE, DEFAULT_WRITE_Q_SIZE).value.down.size == 1
  {
  }

  /** `read` by thread `t`, once its wait on the routed queue is over. */
  function Read<T>(c: Chan<T>, t: Tid): (r: Fatal<Moved<T>>)
    requires Valid(c)
    requires t !in c.nonReaders ==> ReadQueue(c, t).count > 0
    ensures r.Abort? <==> t in c.nonReaders
    ensures r.Ok? ==> Valid(r.value.chan) && SameRoles(c, r.value.chan)
    ensures r.Ok? ==> r.value.chan.up.size == c.up.size && r.value.chan.down.size == c.down.size
    ensures r.Ok? && t in c.readOwners ==>
              [r.value.handle] + CQ.Contents(r.value.chan.up) == CQ.Contents(c.up)
              && r.value.chan.down == c.down
    ensures r.Ok? && t !in c.readOwners ==>
              [r.value.handle] + CQ.Contents(r.value.chan.down) == CQ.Contents(c.down)
              && r.value.chan.up == c.up
  {
    if t in c.nonReaders then Abort
    else
      var m := CQ.Read(ReadQueue(c, t));
      Ok(Moved(WithReadQueue(c, t, m.queue), m.handle))
  }

  /** `write` by thread `t`, once its wait on the routed queue is over. */
  function Write<T>(c: Chan<T>, t: Tid, message: Handle<T>): (r: Fatal<Moved<T>>)
    requires Valid(c)
    requires t !in c.nonWriters ==> WriteQueue(c, t).count < WriteQueue(c, t).size
    ensures r.Abort? <==> t in c.nonWriters
    ensures r.Ok? ==> Valid(r.value.chan) && SameRoles(c, r.value.chan) && r.value.handle == Null
    ensures r.Ok? ==> r.value.chan.up.size == c.up.size && r.value.chan.down.size == c.down.size
    ensures r.Ok? && t in c.writeOwners ==>
              CQ.Contents(r.value.chan.down) == CQ.Contents(c.down) + [message]
              && r.value.chan.up == c.up
    ensures r.Ok? && t !in c.writeOwners ==>
              CQ.Contents(r.value.chan.up) == CQ.Contents(c.up) + [message]
              && r.value.chan.down == c.down
  {
    if t in c.nonWriters then Abort
    else
      var m := CQ.Write(WriteQueue(c, t), message);
      Ok(Moved(WithWriteQueue(c, t, m.queue), m.handle))
  }

  /** `try_reading` by thread `t`: Null and no change when the routed
      queue is empty. */
  function TryReading<T>(c: Chan<T>, t: Tid): (r: Fatal<Moved<T>>)
    requires Valid(c)
    ensures r.Abort? <==> t in c.nonReaders
    ensures r.Ok? ==> Valid(r.value.chan) && SameRoles(c, r.value.chan)
    ensures r.Ok? && ReadQueue(c, t).count == 0 ==> r.value == Moved(c, Null)
    ensures r.Ok? && ReadQueue(c, t).count > 0 ==> r.value == Read(c, t).value
  {
    if t in c.nonReaders then Abort
    else
      var m := CQ.TryReading(ReadQueue(c, t));
      Ok(Moved(WithReadQueue(c, t, m.queue), m.handle))
  }

  /** `timed_read` by thread `t`, given the routed queue's state when the
      wait returned. */
  function TimedRead<T>(c: Chan<T>, t: Tid): (r: Fatal<Waited<T>>)
    requires Valid(c)
    ensures r.Abort? <==> t in c.nonReaders
    ensures r.Ok? ==> Valid(r.value.chan) && SameRoles(c, r.value.chan)
    ensures r.Ok? ==> (r.value.timedOut <==> ReadQueue(c, t).count == 0)
    ensures r.Ok? && r.value.timedOut ==> r.value.chan == c && r.value.handle == Null
    ensures r.Ok? && !r.value.timedOut ==>
              Moved(r.value.chan, r.value.handle) == Read(c, t).value
  {
    if t in c.nonReaders then Abort
    else
      var w := CQ.TimedRead(ReadQueue(c, t));
      Ok(Waited(w.timedOut, WithReadQueue(c, t, w.queue), w.handle))
  }

  /** `try_writing` by thread `t`: false, no change and the message left
      with the caller when the routed queue is full. */
  function TryWriting<T>(c: Chan<T>, t: Tid, message: Handle<T>): (r: Fatal<Offered<T>>)
    requires Valid(c)
    ensures r.Abort? <==> t in c.nonWriters
    ensures r.Ok? ==> Valid(r.value.chan) && SameRoles(c, r.value.chan)
    ensures r.Ok? ==> (r.value.accepted <==> WriteQueue(c, t).count < WriteQueue(c, t).size)
    ensures r.Ok? && !r.value.accepted ==> r.value.chan == c && r.value.handle == message
    ensures r.Ok? && r.value.accepted ==>
              Moved(r.value.chan, r.value.handle) == Write(c, t, message).value
  {
    if t in c.nonWriters then Abort
    else
      var o := CQ.TryWriting(WriteQueue(c, t), message);
      Ok(Offered(o.accepted, WithWriteQueue(c, t, o.queue), o.handle))
  }

  /** `timed_write` by thread `t`, given the routed queue's state when the
      wait returned. */
  function TimedWrite<T>(c: Chan<T>, t: Tid, message: Handle<T>): (r: Fatal<Offered<T>>)
    requires Valid(c)
    ensures r.Abort? <==> t in c.nonWriters
    ensures r.Ok? ==> Valid(r.value.chan) && SameRoles(c, r.value.chan)
    ensures r.Ok? ==> (!r.value.accepted <==> WriteQueue(c, t).count == WriteQueue(c, t).size)
    ensures r.Ok? && !r.value.accepted ==> r.value.chan == c && r.value.handle == message
    ensures r.Ok? && r.value.accepted ==>
              Moved(r.value.chan, r.value.handle) == Write(c, t, message).value
  {
    if t in c.nonWriters then Abort
    else
      var o := CQ.TimedWrite(WriteQueue(c, t), message);
      Ok(Offered(o.accepted, WithWriteQueue(c, t, o.queue), o.handle))
  }

  /** `read_msg_count` by thread `t`: the occupancy of the queue its reads
      use. It performs no allowance check, so it never aborts. */
  function ReadMsgCount<T>(c: Chan<T>, t: Tid): (n: nat)
    requires Valid(c)
    ensures t in c.readOwners ==> n == |CQ.Contents(c.up)|
    ensures t !in c.readOwners ==> n == |CQ.Contents(c.down)|
  {
    CQ.MsgCount(ReadQueue(c, t))
  }

  /** `write_msg_count` by thread `t`: the occupancy of the queue its
      writes use; never aborts. */
  function WriteMsgCount<T>(c: Chan<T>, t: Tid): (n: nat)
    requires Valid(c)
    ensures t in c.writeOwners ==> n == |CQ.Contents(c.down)|
    ensures t !in c.writeOwners ==> n == |CQ.Contents(c.up)|
  {
    CQ.MsgCount(WriteQueue(c, t))
  }

  /** `become_a_non_reader` by thread `t`: give up read ownership and
      record `t` as a permanent non-reader. Nothing else changes. */
  function BecomeNonReader<T>(c: Chan<T>, t: Tid): (r: Chan<T>)
    ensures t !in r.readOwners && t in r.nonReaders
    ensures r.readOwners - {t} == c.readOwners - {t}
    ensures r.nonReaders - {t} == c.nonReaders - {t}
    ensures r.writeOwners == c.writeOwners && r.nonWriters == c.nonWriters
    ensures r.up == c.up && r.down == c.down
  {
    c.(readOwners := c.readOwners - {t}, nonReaders := c.nonReaders + {t})
  }

  /** `become_a_non_writer` by thread `t`: the writing counterpart. */
  function BecomeNonWriter<T>(c: Chan<T>, t: Tid): (r: Chan<T>)
    ensures t !in r.writeOwners && t in r.nonWriters
    ensures r.writeOwners - {t} == c.writeOwners - {t}
    ensures r.nonWriters - {t} == c.nonWriters - {t}
    ensures r.readOwners == c.readOwners && r.nonReaders == c.nonReaders
    ensures r.up == c.up && r.down == c.down
  {
    c.(writeOwners := c.writeOwners - {t}, nonWriters := c.nonWriters + {t})
  }

  /** `become_a_read_owner` by thread `t`: fatal for a non-reader,
      otherwise `t` joins the read owners and nothing else changes. */
  function BecomeReadOwner<T>(c: Chan<T>, t: Tid): (r: Fatal<Chan<T>>)
    ensures r.Abort? <==> t in c.nonReaders
    ensures r.Ok? ==> t in r.value.readOwners && r.value.readOwners - {t} == c.readOwners - {t}
    ensures r.Ok? ==> r.value.(readOwners := c.readOwners) == c
  {
    if t in c.nonReaders then Abort
    else Ok(c.(readOwners := c.readOwners + {t}))
  }

  /** `become_a_write_owner` by thread `t`: fatal for a non-writer,
      otherwise `t` joins the write owners and nothing else changes. */
  function BecomeWriteOwner<T>(c: Chan<T>, t: Tid): (r: Fatal<Chan<T>>)
    ensures r.Abort? <==> t in c.nonWriters
    ensures r.Ok? ==> t in r.value.writeOwners && r.value.writeOwners - {t} == c.writeOwners - {t}
    ensures r.Ok? ==> r.value.(writeOwners := c.writeOwners) == c
  {
    if t in c.nonWriters then Abort
    else Ok(c.(writeOwners := c.writeOwners + {t}))
  }
}

=== FILE: channel_traces.dfy ===
/** Runs of a channel under any interleaving of calls from any threads, and
    the role protocol they obey.

    A run is the sequence of (thread, call) pairs in the order the calls
    took effect. A blocking call whose routed queue is not ready changes
    nothing (its thread keeps waiting); the allowance check that precedes
    the wait happens regardless, so a renounced direction aborts even when
    the call would have blocked. An abort ends the process and the run. */
module ChannelTraces {
  import opened Outcomes
  import CQ = CircularQueue
  import opened Channel

  /** Every public operation of the channel, with its message argument. */
  datatype Call<T> =
    | ReadCall
    | TryReadCall
    | TimedReadCall
    | ReadCountCall
    | WriteCall(message: Handle<T>)
    | TryWriteCall(message: Handle<T>)
    | TimedWriteCall(message: Handle<T>)
    | WriteCountCall
    | BecomeReadOwnerCall
    | BecomeWriteOwnerCall
    | BecomeNonReaderCall
    | BecomeNonWriterCall

  /** The calls that begin with `assert_read_allowance`. */
  predicate ChecksReadAllowance<T>(call: Call<T>) {
    call.ReadCall? || call.TryReadCall? || call.TimedReadCall? || call.BecomeReadOwnerCall?
  }

  /** The calls that begin with `assert_write_allowance`. */
  predicate ChecksWriteAllowance<T>(call: Call<T>) {
    call.WriteCall? || call.TryWriteCall? || call.TimedWriteCall? || call.BecomeWriteOwnerCall?
  }

  /** Only `t`'s own membership may differ between `c` and `c'`. */
  ghost predicate OnlySelfChanged<T>(c: Chan<T>, c': Chan<T>, t: Tid) {
    && c'.readOwners - {t} == c.readOwners - {t}
    && c'.writeOwners - {t} == c.writeOwners - {t}
    && c'.nonReaders - {t} == c.nonReaders - {t}
    && c'.nonWriters - {t} == c.nonWriters - {t}
  }

  /** The calls that use the channel's queues for reading. */
  predicate IsReadSide<T>(call: Call<T>) {
    call.ReadCall? || call.TryReadCall? || call.TimedReadCall? || call.ReadCountCall?
  }

  /** The calls that use the channel's queues for writing. */
  predicate IsWriteSide<T>(call: Call<T>) {
    call.WriteCall? || call.TryWriteCall? || call.TimedWriteCall? || call.WriteCountCall?
  }

  /** What every step guarantees about the role sets: renouncements are
      kept, owners and renouncers stay apart, and only the caller's own
      memberships change. */
  ghost predicate RoleStep<T>(c: Chan<T>, c': Chan<T>, t: Tid) {
    && c.nonReaders <= c'.nonReaders && c.nonWriters <= c'.nonWriters
    && (RolesConsistent(c) ==> RolesConsistent(c'))
    && OnlySelfChanged(c, c', t)
  }

  /** A read-side call by `t`; a blocking read with nothing to read leaves
      the channel as it is. */
  function ApplyRead<T>(c: Chan<T>, t: Tid, call: Call<T>): (r: Fatal<Chan<T>>)
    requires Valid(c) && IsReadSide(call)
    ensures r.Abort? <==> ChecksReadAllowance(call) && t in c.nonReaders
    ensures r.Ok? ==> Valid(r.value) && SameRoles(c, r.value)
  {
    match call
    case ReadCall =>
      if t !in c.nonReaders && ReadQueue(c, t).count == 0 then Ok(c)
      else var m :- Read(c, t); Ok(m.chan)
    case TryReadCall =>
      var m :- TryReading(c, t); Ok(m.chan)
    case TimedReadCall =>
      var w :- TimedRead(c, t); Ok(w.chan)
    case ReadCountCall =>
      Ok(c)
  }

  /** A write-side call by `t`; a blocking write with no room leaves the
      channel as it is. */
  function ApplyWrite<T>(c: Chan<T>, t: Tid, call: Call<T>): (r: Fatal<Chan<T>>)
    requires Valid(c) && IsWriteSide(call)
    ensures r.Abort? <==> ChecksWriteAllowance(call) && t in c.nonWriters
    ensures r.Ok? ==> Valid(r.value) && SameRoles(c, r.value)
  {
    match call
    case WriteCall(message) =>
      if t !in c.nonWriters && WriteQueue(c, t).count == WriteQueue(c, t).size then Ok(c)
      else var m :- Write(c, t, message); Ok(m.chan)
    case TryWriteCall(message) =>
      var o :- TryWriting(c, t, message); Ok(o.chan)
    case TimedWriteCall(message) =>
      var o :- TimedWrite(c, t, message); Ok(o.chan)
    case WriteCountCall =>
      Ok(c)
  }

  /** A role-changing call by `t`. */
  function ApplyRole<T>(c: Chan<T>, t: Tid, call: Call<T>): (r: Fatal<Chan<T>>)
    requires !IsReadSide(call) && !IsWriteSide(call)
    ensures r.Abort? <==> (call.BecomeReadOwnerCall? && t in c.nonReaders)
                          || (call.BecomeWriteOwnerCall? && t in c.nonWriters)
    ensures r.Ok? ==> r.value.up == c.up && r.value.down == c.down && RoleStep(c, r.value, t)
  {
    match call
    case BecomeReadOwnerCall =>
      BecomeReadOwner(c, t)
    case BecomeWriteOwnerCall =>
      BecomeWriteOwner(c, t)
    case BecomeNonReaderCall =>
      Ok(BecomeNonReader(c, t))
    case BecomeNonWriterCall =>
      Ok(BecomeNonWriter(c, t))
  }

  /** The channel after thread `t` makes `call`. */
  function Apply<T>(c: Chan<T>, t: Tid, call: Call<T>): (r: Fatal<Chan<T>>)
    requires Valid(c)
    ensures r.Abort? <==> (ChecksReadAllowance(call) && t in c.nonReaders)
                          || (ChecksWriteAllowance(call) && t in c.nonWriters)
    ensures r.Ok? ==> Valid(r.value) && RoleStep(c, r.value, t)
  {
    if IsReadSide(call) then ApplyRead(c, t, call)
    else if IsWriteSide(call) then ApplyWrite(c, t, call)
    else ApplyRole(c, t, call)
  }

  /** A whole run; the first abort ends it. */
  function Run<T>(c: Chan<T>, steps: seq<(Tid, Call<T>)>): (r: Fatal<Chan<T>>)
    requires Valid(c)
    ensures r.Ok? ==> Valid(r.value)
    decreases |steps|
  {
    if steps == [] then Ok(c)
    else
      match Apply(c, steps[0].0, steps[0].1)
      case Abort => Abort
      case Ok(c') => Run(c', steps[1..])
  }

  /** Renouncing is irrevocable: over any run that does not abort, the
      non-reader and non-writer sets only grow, and no thread ever becomes
      an owner of a direction it has renounced. */
  lemma {:induction false} RenunciationIsPermanent<T>(c: Chan<T>, steps: seq<(Tid, Call<T>)>)
    requires Valid(c) && RolesConsistent(c)
    ensures Run(c, steps).Ok? ==> RolesConsistent(Run(c, steps).value)
    ensures Run(c, steps).Ok? ==> c.nonReaders <= Run(c, steps).value.nonReaders
    ensures Run(c, steps).Ok? ==> c.nonWriters <= Run(c, steps).value.nonWriters
    decreases |steps|
  {
    if steps != [] {
      var a := Apply(c, steps[0].0, steps[0].1);
      if a.Ok? {
        RenunciationIsPermanent(a.value, steps[1..]);
      }
    }
  }

  /** Once `t` is a non-reader, any run in which `t` later reads (blocking,
      try or timed) or claims read ownership aborts. */
  lemma {:induction false} RenouncedReaderAborts<T>(c: Chan<T>, steps: seq<(Tid, Call<T>)>, t: Tid, i: nat)
    requires Valid(c) && t in c.nonReaders
    requires i < |steps| && steps[i].0 == t && ChecksReadAllowance(steps[i].1)
    ensures Run(c, steps).Abort?
    decreases i
  {
    var a := Apply(c, steps[0].0, steps[0].1);
    if i > 0 && a.Ok? {
      RenouncedReaderAborts(a.value, steps[1..], t, i - 1);
    }
  }

  /** Once `t` is a non-writer, any run in which `t` later writes or claims
      write ownership aborts. */
  lemma {:induction false} RenouncedWriterAborts<T>(c: Chan<T>, steps: seq<(Tid, Call<T>)>, t: Tid, i: nat)
    requires Valid(c) && t in c.nonWriters
    requires i < |steps| && steps[i].0 == t && ChecksWriteAllowance(steps[i].1)
    ensures Run(c, steps).Abort?
    decreases i
  {
    var a := Apply(c, steps[0].0, steps[0].1);
    if i > 0 && a.Ok? {
      RenouncedWriterAborts(a.value, steps[1..], t, i - 1);
    }
  }

  /** After `t` calls `become_a_non_reader`, whatever any thread does next,
      `t` stays a non-reader and never again owns the read direction, and
      a later read or read-ownership claim by `t` aborts. */
  lemma AfterBecomeNonReader<T>(c: Chan<T>, t: Tid, steps: seq<(Tid, Call<T>)>)
    requires Valid(c) && RolesConsistent(c)
    ensures var r := Run(c, [(t, BecomeNonReaderCall)] + steps);
            r.Ok? ==> t in r.value.nonReaders && t !in r.value.readOwners
    ensures (exists i :: 0 <= i < |steps| && steps[i].0 == t && ChecksReadAllowance(steps[i].1))
            ==> Run(c, [(t, BecomeNonReaderCall)] + steps).Abort?
  {
    var all := [(t, BecomeNonReaderCall)] + steps;
    assert all[0] == (t, BecomeNonReaderCall) && all[1..] == steps;
    var c1 := BecomeNonReader(c, t);
    assert Run(c, all) == Run(c1, steps);
    RenunciationIsPermanent(c1, steps);
    if i :| 0 <= i < |steps| && steps[i].0 == t && ChecksReadAllowance(steps[i].1) {
      RenouncedReaderAborts(c1, steps, t, i);
    }
  }

  /** The writing counterpart of `AfterBecomeNonReader`. */
  lemma AfterBecomeNonWriter<T>(c: Chan<T>, t: Tid, steps: seq<(Tid, Call<T>)>)
    requires Valid(c) && RolesConsistent(c)
    ensures var r := Run(c, [(t, BecomeNonWriterCall)] + steps);
            r.Ok? ==> t in r.value.nonWriters && t !in r.value.writeOwners
    ensures (exists i :: 0 <= i < |steps| && steps[i].0 == t && ChecksWriteAllowance(steps[i].1))
            ==> Run(c, [(t, BecomeNonWriterCall)] + steps).Abort?
  {
    var all := [(t, BecomeNonWriterCall)] + steps;
    assert all[0] == (t, BecomeNonWriterCall) && all[1..] == steps;
    var c1 := BecomeNonWriter(c, t);
    assert Run(c, all) == Run(c1, steps);
    RenunciationIsPermanent(c1, steps);
    if i :| 0 <= i < |steps| && steps[i].0 == t && ChecksWriteAllowance(steps[i].1) {
      RenouncedWriterAborts(c1, steps, t, i);
    }
  }

  /** Every channel reachable from construction keeps owners and renouncers
      apart. */
  lemma ReachableRolesConsistent<T>(creator: Tid, readQSize: CTypes.Int32, writeQSize: CTypes.Int32,
                                    steps: seq<(Tid, Call<T>)>)
    requires New<T>(creator, readQSize, writeQSize).Ok?
    ensures Run(New<T>(creator, readQSize, writeQSize).value, steps).Ok? ==>
              RolesConsistent(Run(New<T>(creator, readQSize, writeQSize).value, steps).value)
  {
    RenunciationIsPermanent(New<T>(creator, readQSize, writeQSize).value, steps);
  }

  /** Calling `become_a_non_reader` twice is the same as calling it once. */
  lemma BecomeNonReaderIdempotent<T>(c: Chan<T>, t: Tid)
    ensures BecomeNonReader(BecomeNonReader(c, t), t) == BecomeNonReader(c, t)
  {
    assert (c.readOwners - {t}) - {t} == c.readOwners - {t};
    assert (c.nonReaders + {t}) + {t} == c.nonReaders + {t};
  }

  /** Calling `become_a_non_writer` twice is the same as calling it once. */
  lemma BecomeNonWriterIdempotent<T>(c: Chan<T>, t: Tid)
    ensures BecomeNonWriter(BecomeNonWriter(c, t), t) == BecomeNonWriter(c, t)
  {
    assert (c.writeOwners - {t}) - {t} == c.writeOwners - {t};
    assert (c.nonWriters + {t}) + {t} == c.nonWriters + {t};
  }

  /** Routing wires owners to workers: a message a write owner sends into
      an empty `down` queue is what the next read by a worker (a thread
      that owns no read role) returns. */
  lemma OwnerToWorker<T>(c: Chan<T>, owner: Tid, worker: Tid, m: Handle<T>)
    requires Valid(c) && CQ.Contents(c.down) == []
    requires owner in c.writeOwners && owner !in c.nonWriters
    requires worker !in c.readOwners && worker !in c.nonReaders
    ensures Write(c, owner, m).Ok?
    ensures Read(Write(c, owner, m).value.chan, worker).value.handle == m
  {
    var c1 := Write(c, owner, m).value.chan;
    assert CQ.Contents(c1.down) == [m];
  }

  /** ... and a worker's result sent into an empty `up` queue is what the
      next read by a read owner returns. */
  lemma WorkerToOwner<T>(c: Chan<T>, worker: Tid, owner: Tid, m: Handle<T>)
    requires Valid(c) && CQ.Contents(c.up) == []
    requires worker !in c.writeOwners && worker !in c.nonWriters
    requires owner in c.readOwners && owner !in c.nonReaders
    ensures Write(c, worker, m).Ok?
    ensures Read(Write(c, worker, m).value.chan, owner).value.handle == m
  {
    var c1 := Write(c, worker, m).value.chan;
    assert CQ.Contents(c1.up) == [m];
  }

  /** `channel(1, 2)` made by `owner`: `up` holds one message and `down`
      two; the owner's first two writes go through without waiting, its
      third waits for room, and a worker sees both queued messages as
      its read count. */
  lemma CapacitySplit<T>(owner: Tid, worker: Tid, m1: Handle<T>, m2: Handle<T>)
    requires worker != owner
    ensures New<T>(owner, 1, 2).Ok?
    ensures var c0 := New<T>(owner, 1, 2).value;
            && c0.up.size == 1 && c0.down.size == 2
            && WriteQueue(c0, owner).count < WriteQueue(c0, owner).size
            && var c1 := Write(c0, owner, m1).value.chan;
               && WriteQueue(c1, owner).count < WriteQueue(c1, owner).size
               && var c2 := Write(c1, owner, m2).value.chan;
                  && WriteQueue(c2, owner).count == WriteQueue(c2, owner).size
                  && ReadMsgCount(c2, worker) == 2
  {
    var c0 := New<T>(owner, 1, 2).value;
    var c1 := Write(c0, owner, m1).value.chan;
    var c2 := Write(c1, owner, m2).value.chan;
    assert CQ.Contents(c2.down) == [m1, m2];
  }
}

=== FILE: circular_queue.dfy ===
/** The fixed-capacity ring buffer `thread_comm::circular_queue<T>`
    (include/thread_comm.h:32-213), as a sequential state machine.

    Every operation is one atomic step taken while holding the queue's
    mutex after its wait predicate has been evaluated. The blocking
    operations require their predicate (`count < size` for writing,
    `count > 0` for reading); the non-blocking and timed ones branch on it.
    A timed wait ends either because the predicate became true or because
    the deadline passed, and `wait_for` with a predicate then returns the
    predicate's value, so whether a timed call timed out is decided by the
    queue state at the instant its wait returns: the timed operations take
    that state as their input. */
module CircularQueue {
  import opened Outcomes
  import opened CTypes

  /** The constructor's default argument. */
  const DEFAULT_SIZE: Int32 := 1

  /** The queue's fields: `size`, `read_index`, `write_index`, `count` and
      the vector `data` of `size` slots. */
  datatype Queue<T> = Queue(
    size: nat,
    readIndex: nat,
    writeIndex: nat,
    count: nat,
    data: seq<Handle<T>>)

  /** A queue and a handle after one step: for a write, the caller's
      handle after the message was offered; for a read, the message
      handed back. */
  datatype Moved<T> = Moved(queue: Queue<T>, handle: Handle<T>)

  /** The outcome of `try_writing` or `timed_write`: whether the message
      was accepted, the queue, and the caller's handle afterwards. */
  datatype Offered<T> = Offered(accepted: bool, queue: Queue<T>, handle: Handle<T>)

  /** The outcome of `timed_read`: the `timed_out` flag, the queue, and
      the message returned. */
  datatype Waited<T> = Waited(timedOut: bool, queue: Queue<T>, handle: Handle<T>)

  /** The index reached by stepping `k` places from 0 around a ring of
      `size` slots, for `k` below two laps. */
  function Wrap(k: nat, size: nat): (i: nat)
    requires k < 2 * size
    ensures i < size
  {
    if k < size then k else k - size
  }

  /** How many places slot `i` lies after the read index. */
  function Distance<T>(q: Queue<T>, i: nat): (d: nat)
    requires q.readIndex < q.size && i < q.size
    ensures d < q.size
    ensures Wrap(q.readIndex + d, q.size) == i
  {
    if i >= q.readIndex then i - q.readIndex else i + q.size - q.readIndex
  }

  /** The ring invariant: indices in range, `count` within capacity, the
      write index `count` places after the read index, and every slot
      outside the occupied window empty (moved-from). */
  ghost predicate Valid<T>(q: Queue<T>) {
    && q.size >= 1
    && |q.data| == q.size
    && q.readIndex < q.size
    && q.writeIndex < q.size
    && q.count <= q.size
    && q.writeIndex == Wrap(q.readIndex + q.count, q.size)
    && (forall i :: 0 <= i < q.size && q.count <= Distance(q, i) ==> q.data[i] == Null)
  }

  /** The ring invariant in the modular form: the write index is
      `(read_index + count) % size`. */
  lemma WriteIndexIsModular<T>(q: Queue<T>)
    requires Valid(q)
    ensures q.writeIndex == (q.readIndex + q.count) % q.size
  {
    WrapIsModulo(q.readIndex + q.count, q.size);
  }

  /** Within two laps, wrapping once is the remainder modulo `size`. */
  lemma WrapIsModulo(k: nat, size: nat)
    requires k < 2 * size
    ensures Wrap(k, size) == k % size
  {
    var d, m := k / size, k % size;
    assert k == d * size + m && 0 <= m < size;
    assert d == 1 || k < size;
  }

  /** The abstract contents: the queued payloads, oldest first. */
  ghost function Contents<T>(q: Queue<T>): (s: seq<Handle<T>>)
    requires Valid(q)
    ensures |s| == q.count
  {
    seq(q.count, j requires 0 <= j < q.count => q.data[Wrap(q.readIndex + j, q.size)])
  }

  /** `std::vector<std::unique_ptr<T>>::max_size()` on a 64-bit target:
      `PTRDIFF_MAX / sizeof(std::unique_ptr<T>)`, that is (2^63 - 1) / 8. */
  const VECTOR_MAX_SIZE: nat := 0x0fff_ffff_ffff_ffff

  /** The constructor `circular_queue(int _size)`. The argument is
      converted to `std::size_t`; a size of zero aborts explicitly. A
      negative argument wraps to at least 2^63, beyond `VECTOR_MAX_SIZE`,
      so allocating the slot vector throws `std::length_error`, which
      nothing catches and which therefore ends the process as well.
      Otherwise every slot starts empty and both indices at 0. */
  function New<T>(requested: Int32): (r: Fatal<Queue<T>>)
    ensures r.Abort? <==> requested <= 0
    ensures r.Ok? ==> Valid(r.value) && Contents(r.value) == []
    ensures r.Ok? ==> r.value.size == requested
    ensures r.Ok? ==> r.value.readIndex == 0 && r.value.writeIndex == 0
  {
    var size := ToSizeT(requested);
    if size == 0 then Abort
    else if size > VECTOR_MAX_SIZE then Abort
    else Ok(Queue(size, 0, 0, 0, seq(size, _ => Null)))
  }

  /** A queue built with the default argument holds one message. */
  lemma DefaultQueue<T>()
    ensures New<T>(DEFAULT_SIZE).Ok? && New<T>(DEFAULT_SIZE).value.size == 1
  {
  }

  /** `write` (its body `_write`) once its wait for `count < size` is
      over: store at the write index, advance it (back to 0 on reaching
      `size`), bump `count`. The message is moved, so the caller's handle
      is left Null. */
  function Write<T>(q: Queue<T>, message: Handle<T>): (r: Moved<T>)
    requires Valid(q) && q.count < q.size
    ensures Valid(r.queue) && r.queue.size == q.size
    ensures Contents(r.queue) == Contents(q) + [message]
    ensures r.queue.count == q.count + 1
    ensures r.handle == Null
  {
    var next := q.writeIndex + 1;
    var q' := q.(data := q.data[q.writeIndex := message],
                 writeIndex := if next == q.size then 0 else next,
                 count := q.count + 1);
    WriteKeepsRing(q, message, q');
    Moved(q', Null)
  }

  lemma WriteKeepsRing<T>(q: Queue<T>, message: Handle<T>, q': Queue<T>)
    requires Valid(q) && q.count < q.size
    requires q' == q.(data := q.data[q.writeIndex := message],
                      writeIndex := if q.writeIndex + 1 == q.size then 0 else q.writeIndex + 1,
                      count := q.count + 1)
    ensures Valid(q')
    ensures Contents(q') == Contents(q) + [message]
  {
    assert Distance(q, q.writeIndex) == q.count;
    forall i | 0 <= i < q'.size && q'.count <= Distance(q', i)
      ensures q'.data[i] == Null
    {
      assert i != q.writeIndex;
    }
    assert Valid(q');
    forall j | 0 <= j < q.count
      ensures Contents(q')[j] == Contents(q)[j]
    {
      assert Wrap(q.readIndex + j, q.size) != q.writeIndex;
    }
  }

  /** `read` (its body `_read`) once its wait for `count > 0` is over:
      take the message at the read index (leaving that slot empty), advance
      the index (back to 0 on reaching `size`), decrement `count`. */
  function Read<T>(q: Queue<T>): (r: Moved<T>)
    requires Valid(q) && q.count > 0
    ensures Valid(r.queue) && r.queue.size == q.size
    ensures r.handle == Contents(q)[0]
    ensures Contents(r.queue) == Contents(q)[1..]
    ensures r.queue.count == q.count - 1
    ensures r.queue.data[q.readIndex] == Null
  {
    var next := q.readIndex + 1;
    var q' := q.(data := q.data[q.readIndex := Null],
                 readIndex := if next == q.size then 0 else next,
                 count := q.count - 1);
    ReadKeepsRing(q, q');
    Moved(q', q.data[q.readIndex])
  }

  lemma ReadKeepsRing<T>(q: Queue<T>, q': Queue<T>)
    requires Valid(q) && q.count > 0
    requires q' == q.(data := q.data[q.readIndex := Null],
                      readIndex := if q.readIndex + 1 == q.size then 0 else q.readIndex + 1,
                      count := q.count - 1)
    ensures Valid(q')
    ensures Contents(q') == Contents(q)[1..]
  {
    forall i | 0 <= i < q'.size && q'.count <= Distance(q', i)
      ensures q'.data[i] == Null
    {
      if i != q.readIndex {
        assert Distance(q', i) + 1 == Distance(q, i);
      }
    }
    assert Valid(q');
    forall j | 0 <= j < q'.count
      ensures Contents(q')[j] == Contents(q)[j + 1]
    {
      assert Wrap(q'.readIndex + j, q.size) == Wrap(q.readIndex + j + 1, q.size);
    }
  }

  /** `try_writing`: write only if there is room right now; otherwise
      report failure, change nothing and leave the message with the caller. */
  function TryWriting<T>(q: Queue<T>, message: Handle<T>): (r: Offered<T>)
    requires Valid(q)
    ensures Valid(r.queue) && r.queue.size == q.size
    ensures r.accepted <==> q.count < q.size
    ensures r.accepted ==> Contents(r.queue) == Contents(q) + [message] && r.handle == Null
    ensures r.accepted ==> r.queue == Write(q, message).queue
    ensures !r.accepted ==> r.queue == q && r.handle == message
  {
    if q.count < q.size then
      var m := Write(q, message);
      Offered(true, m.queue, m.handle)
    else
      Offered(false, q, message)
  }

  /** `try_reading`: read only if a message is queued right now; otherwise
      return Null and change nothing. */
  function TryReading<T>(q: Queue<T>): (r: Moved<T>)
    requires Valid(q)
    ensures Valid(r.queue) && r.queue.size == q.size
    ensures q.count > 0 ==> [r.handle] + Contents(r.queue) == Contents(q)
    ensures q.count > 0 ==> r == Read(q)
    ensures q.count == 0 ==> r.queue == q && r.handle == Null
  {
    if q.count > 0 then Read(q) else Moved(q, Null)
  }

  /** `timed_write`, given the state at the instant its wait returned: on
      timeout nothing changes, the message stays with the caller and the
      call returns false. */
  function TimedWrite<T>(q: Queue<T>, message: Handle<T>): (r: Offered<T>)
    requires Valid(q)
    ensures Valid(r.queue) && r.queue.size == q.size
    ensures !r.accepted <==> q.count == q.size
    ensures r.accepted ==> Contents(r.queue) == Contents(q) + [message] && r.handle == Null
    ensures r.accepted ==> r.queue == Write(q, message).queue
    ensures !r.accepted ==> r.queue == q && r.handle == message
  {
    if q.count < q.size then
      var m := Write(q, message);
      Offered(true, m.queue, m.handle)
    else
      Offered(false, q, message)
  }

  /** `timed_read`, given the state at the instant its wait returned: on
      timeout nothing changes, `timed_out` is set and Null is returned. */
  function TimedRead<T>(q: Queue<T>): (r: Waited<T>)
    requires Valid(q)
    ensures Valid(r.queue) && r.queue.size == q.size
    ensures r.timedOut <==> q.count == 0
    ensures !r.timedOut ==> [r.handle] + Contents(r.queue) == Contents(q)
    ensures !r.timedOut ==> Moved(r.queue, r.handle) == Read(q)
    ensures r.timedOut ==> r.queue == q && r.handle == Null
  {
    if q.count > 0 then
      var m := Read(q);
      Waited(false, m.queue, m.handle)
    else
      Waited(true, q, Null)
  }

  /** `msg_count`: the number of queued messages. */
  function MsgCount<T>(q: Queue<T>): (n: nat)
    requires Valid(q)
    ensures n == |Contents(q)|
    ensures n <= q.size
  {
    q.count
  }
}

=== FILE: ctypes.dfy ===
/** The C++ integer types that appear at the library's boundary. */
module CTypes {

  const INT_MIN: int := -0x8000_0000
  const INT_MAX: int := 0x7fff_ffff

  /** Number of values of std::size_t on a 64-bit target. */
  const SIZE_T_MODULUS: int := 0x1_0000_0000_0000_0000

  /** A C++ `int`. */
  type Int32 = x: int | INT_MIN <= x <= INT_MAX

  /** The implicit conversion of an `int` to `std::size_t`: the unique
      value in [0, 2^64) congruent to the argument modulo 2^64. */
  function ToSizeT(x: Int32): (r: nat)
    ensures r < SIZE_T_MODULUS
    ensures r % SIZE_T_MODULUS == x % SIZE_T_MODULUS
    ensures r == 0 <==> x == 0
  {
    if x < 0 then x + SIZE_T_MODULUS else x
  }
}

=== FILE: outcomes.dfy ===
/** Value shapes shared by the queue and the channel models. */
module Outcomes {

  /** An owning, move-only handle: the model of std::unique_ptr<T>.
      Null is an ordinary payload (by convention the shutdown sentinel);
      the transport never looks inside a handle. */
  datatype Handle<+T> = Null | Owned(value: T)

  /** The result of an operation whose misuse yields no object: an
      explicit std::abort(), or an exception the library does not catch
      (fatal unless the caller catches it). */
  datatype Fatal<+R> = Abort | Ok(value: R) {

    /** An abort propagates through `:-`. */
    predicate IsFailure() {
      Abort?
    }

    function PropagateFailure<U>(): Fatal<U>
      requires Abort?
    {
      Abort
    }

    function Extract(): R
      requires Ok?
    {
      value
    }
  }
}

=== FILE: queue_traces.dfy ===
/** Runs of a circular queue under any interleaving of writers and readers.

    A run is the sequence of calls in the order their lock acquisitions
    were granted. A call whose wait predicate does not hold changes
    nothing: a blocking caller keeps waiting, a `try_*` or timed caller
    gives up (include/thread_comm.h:183-199), so both read here as a step
    that leaves the queue as it was. */
module QueueTraces {
  import opened Outcomes
  import opened CircularQueue

  /** One call on the queue: offer a message, or ask for one. */
  datatype Call<T> = Put(message: Handle<T>) | Take

  /** The queue after a run, the messages the run's writes handed over,
      and the messages its reads got back, each in order. */
  datatype Log<T> = Log(queue: Queue<T>, accepted: seq<Handle<T>>, delivered: seq<Handle<T>>)

  /** One call: a Put is accepted iff there is room, a Take delivers iff a
      message is queued. */
  function Step<T>(q: Queue<T>, call: Call<T>): (r: Log<T>)
    requires Valid(q)
    ensures Valid(r.queue) && r.queue.size == q.size
    ensures call.Put? ==> r.delivered == [] && (r.accepted == [call.message] <==> q.count < q.size)
    ensures call.Put? && q.count < q.size ==> r.queue.count == q.count + 1
    ensures call.Put? && q.count == q.size ==> r == Log(q, [], [])
    ensures call.Take? ==> r.accepted == [] && (|r.delivered| == 1 <==> q.count > 0)
    ensures call.Take? && q.count == 0 ==> r == Log(q, [], [])
  {
    match call
    case Put(m) =>
      if q.count < q.size then Log(Write(q, m).queue, [m], [])
      else Log(q, [], [])
    case Take =>
      if q.count > 0 then
        var m := Read(q);
        Log(m.queue, [], [m.handle])
      else
        Log(q, [], [])
  }

  /** One call keeps the balance between contents, accepted and delivered
      messages. */
  lemma StepBalance<T>(q: Queue<T>, call: Call<T>)
    requires Valid(q)
    ensures Step(q, call).delivered + Contents(Step(q, call).queue) == Contents(q) + Step(q, call).accepted
  {
  }

  /** A whole run, call by call. */
  function Run<T>(q: Queue<T>, calls: seq<Call<T>>): (r: Log<T>)
    requires Valid(q)
    ensures Valid(r.queue) && r.queue.size == q.size
    decreases |calls|
  {
    if calls == [] then Log(q, [], [])
    else
      var s := Step(q, calls[0]);
      var rest := Run(s.queue, calls[1..]);
      Log(rest.queue, s.accepted + rest.accepted, s.delivered + rest.delivered)
  }

  /** Nothing is lost and nothing is duplicated: what a run delivered
      followed by what is still queued is exactly what was queued before
      followed by what the run accepted, in order. In particular the
      occupancy is the number of accepted writes minus delivered reads. */
  lemma {:induction false} NoLossNoDuplication<T>(q: Queue<T>, calls: seq<Call<T>>)
    requires Valid(q)
    ensures Run(q, calls).delivered + Contents(Run(q, calls).queue) == Contents(q) + Run(q, calls).accepted
    ensures Run(q, calls).queue.count + |Run(q, calls).delivered| == q.count + |Run(q, calls).accepted|
    decreases |calls|
  {
    if calls != [] {
      var s := Step(q, calls[0]);
      var rest := Run(s.queue, calls[1..]);
      NoLossNoDuplication(s.queue, calls[1..]);
      StepBalance(q, calls[0]);
      Chain(s.delivered, rest.delivered, Contents(q), Contents(s.queue), Contents(rest.queue),
            s.accepted, rest.accepted);
      assert |Contents(q) + Run(q, calls).accepted| == |Run(q, calls).delivered + Contents(Run(q, calls).queue)|;
    }
  }

  /** Two consecutive "delivered + remaining == before + accepted"
      balances compose. */
  lemma Chain<X>(d1: seq<X>, d2: seq<X>, c0: seq<X>, c1: seq<X>, c2: seq<X>, a1: seq<X>, a2: seq<X>)
    requires d1 + c1 == c0 + a1
    requires d2 + c2 == c1 + a2
    ensures (d1 + d2) + c2 == c0 + (a1 + a2)
  {
    calc {
      (d1 + d2) + c2;
      d1 + (c1 + a2);
      (d1 + c1) + a2;
      c0 + (a1 + a2);
    }
  }

  /** Each message of `ms` offered in turn. */
  function Puts<T>(ms: seq<Handle<T>>): (calls: seq<Call<T>>)
    ensures |calls| == |ms|
    ensures forall i :: 0 <= i < |ms| ==> calls[i] == Put(ms[i])
  {
    seq(|ms|, i requires 0 <= i < |ms| => Put(ms[i]))
  }

  /** `n` reads in a row. */
  function Takes<T>(n: nat): (calls: seq<Call<T>>)
    ensures |calls| == n
    ensures forall i :: 0 <= i < n ==> calls[i] == Take
  {
    seq(n, _ => Take)
  }

  /** While there is room, every write goes through without blocking. */
  lemma {:induction false} PutsWhileRoom<T>(q: Queue<T>, ms: seq<Handle<T>>)
    requires Valid(q)
    requires |ms| <= q.size - q.count
    ensures Run(q, Puts(ms)).accepted == ms
    ensures Run(q, Puts(ms)).delivered == []
    decreases |ms|
  {
    if ms != [] {
      var calls := Puts(ms);
      assert calls[0] == Put(ms[0]);
      assert calls[1..] == Puts(ms[1..]);
      var s := Step(q, Put(ms[0]));
      PutsWhileRoom(s.queue, ms[1..]);
      assert [ms[0]] + ms[1..] == ms;
    }
  }

  /** ... and appends its message to the contents. */
  lemma PutsAppend<T>(q: Queue<T>, ms: seq<Handle<T>>)
    requires Valid(q)
    requires |ms| <= q.size - q.count
    ensures Contents(Run(q, Puts(ms)).queue) == Contents(q) + ms
  {
    PutsWhileRoom(q, ms);
    NoLossNoDuplication(q, Puts(ms));
    assert [] + Contents(Run(q, Puts(ms)).queue) == Contents(Run(q, Puts(ms)).queue);
  }

  /** Reading `n` times from a queue holding at least `n` messages never
      blocks and hands back its first `n` messages, oldest first. */
  lemma {:induction false} TakesInOrder<T>(q: Queue<T>, n: nat)
    requires Valid(q)
    requires n <= q.count
    ensures Run(q, Takes(n)).accepted == []
    ensures Run(q, Takes(n)).delivered == Contents(q)[..n]
    ensures Contents(Run(q, Takes(n)).queue) == Contents(q)[n..]
    decreases n
  {
    if n > 0 {
      var s := Step(q, Take);
      StepBalance(q, Take);
      assert Takes<T>(n)[1..] == Takes(n - 1);
      TakesInOrder(s.queue, n - 1);
      assert s.delivered + Contents(s.queue) == Contents(q);
      assert Contents(s.queue) == Contents(q)[1..];
      assert Contents(q)[..n] == [Contents(q)[0]] + Contents(q)[1..][..n - 1];
    }
  }

  /** FIFO: writing `ms` into an empty queue with room for them and then
      reading as many times hands `ms` back in the order written, and
      leaves the queue empty. */
  lemma Fifo<T>(q: Queue<T>, ms: seq<Handle<T>>)
    requires Valid(q) && Contents(q) == []
    requires |ms| <= q.size
    ensures Run(Run(q, Puts(ms)).queue, Takes(|ms|)).delivered == ms
    ensures Contents(Run(Run(q, Puts(ms)).queue, Takes(|ms|)).queue) == []
  {
    var filled := Run(q, Puts(ms)).queue;
    PutsAppend(q, ms);
    assert Contents(filled) == ms;
    TakesInOrder(filled, |ms|);
    assert Contents(filled)[..|ms|] == ms;
    assert Contents(filled)[|ms|..] == [];
  }

  /** A queue of capacity N takes N writes without blocking, and the next
      write blocks (or, for `try_writing` and `timed_write`, fails). */
  lemma CapacityIsExact<T>(requested: CTypes.Int32, ms: seq<Handle<T>>, m: Handle<T>)
    requires New<T>(requested).Ok?
    requires |ms| == New<T>(requested).value.size
    ensures Run(New<T>(requested).value, Puts(ms)).accepted == ms
    ensures Step(Run(New<T>(requested).value, Puts(ms)).queue, Put(m)).accepted == []
  {
    var q := New<T>(requested).value;
    PutsWhileRoom(q, ms);
    NoLossNoDuplication(q, Puts(ms));
  }

  /** The slot a write fills is always empty, so storing the message never
      destroys one still waiting to be read. */
  lemma WriteTargetIsEmpty<T>(q: Queue<T>)
    requires Valid(q) && q.count < q.size
    ensures q.data[q.writeIndex] == Null
  {
    assert Distance(q, q.writeIndex) == q.count;
  }

  /** On a queue of capacity 1, a first `try_writing` goes through and a
      second one is refused, leaving the queue as the first left it and
      the message with its caller. */
  lemma TryWritingFillsThenRefuses<T>(m1: Handle<T>, m2: Handle<T>)
    ensures New<T>(1).Ok?
    ensures var first := TryWriting(New<T>(1).value, m1);
            var second := TryWriting(first.queue, m2);
            first.accepted && !second.accepted
            && second.queue == first.queue && second.handle == m2
            && Contents(second.queue) == [m1]
  {
  }

  /** A Null from `try_reading` does not tell the caller which case it was:
      on an empty queue nothing changes, while on a queue whose oldest
      message is the Null sentinel that message is consumed. */
  lemma TryReadingNullIsAmbiguous<T>(q: Queue<T>)
    requires Valid(q) && Contents(q) == [Null]
    ensures TryReading(q).handle == Null && Contents(TryReading(q).queue) == []
    ensures var e := Read(q).queue;
            TryReading(e).handle == Null && TryReading(e).queue == e
  {
  }
}

=== FILE: ring_buffer.dfy ===
/** `circular_queue<T>` as a mutable object over an array of slots, the
    shape the C++ class has (include/thread_comm.h:46-64). Each method is
    the critical section of the corresponding C++ member: it runs with the
    mutex held and, for the blocking ones, after the wait predicate has
    become true. Every method is proved to take the object exactly along
    the corresponding step of the `CircularQueue` state machine, and a
    ghost sequence `contents` tracks the queued payloads. */
module RingBuffer {
  import opened Outcomes
  import opened CTypes
  import CQ = CircularQueue

  class Buffer<T> {
    var size: nat
    var readIndex: nat
    var writeIndex: nat
    var count: nat
    var data: array<Handle<T>>
    ghost var contents: seq<Handle<T>>

    /** The object's state as a value of the state machine. */
    ghost function Model(): CQ.Queue<T>
      reads this, data
    {
      CQ.Queue(size, readIndex, writeIndex, count, data[..])
    }

    ghost predicate Valid()
      reads this, data
    {
      CQ.Valid(Model()) && contents == CQ.Contents(Model())
    }

    constructor Init(n: nat)
      requires n >= 1
      ensures Valid() && contents == [] && size == n && fresh(data)
      ensures readIndex == 0 && writeIndex == 0 && count == 0
    {
      size := n;
      readIndex := 0;
      writeIndex := 0;
      count := 0;
      data := new Handle<T>[n](_ => Null);
      contents := [];
    }

    /** The constructor `circular_queue(int _size)`: a size of 0 aborts,
        and a negative size wraps past `CQ.VECTOR_MAX_SIZE`, where the slot
        vector's allocation throws and ends the process. */
    static method Create(requested: Int32) returns (r: Fatal<Buffer<T>>)
      ensures r.Abort? <==> requested <= 0
      ensures r.Ok? ==> fresh(r.value) && fresh(r.value.data)
      ensures r.Ok? ==> r.value.Valid() && r.value.contents == []
      ensures r.Ok? ==> r.value.size == requested
      ensures r.Ok? ==> r.value.Model() == CQ.New<T>(requested).value
    {
      var n := ToSizeT(requested);
      if n == 0 || n > CQ.VECTOR_MAX_SIZE {
        r := Abort;
      } else {
        var b := new Buffer.Init(n);
        r := Ok(b);
      }
    }

    /** `write` after its wait: store, advance the write index, bump
        `count`; the caller's handle is left Null. */
    method Write(message: Handle<T>) returns (left: Handle<T>)
      requires Valid() && count < size
      modifies this, data
      ensures Valid() && data == old(data)
      ensures Model() == CQ.Write(old(Model()), message).queue
      ensures contents == old(contents) + [message]
      ensures left == Null
    {
      ghost var q := Model();
      data[writeIndex] := message;
      writeIndex := writeIndex + 1;
      if writeIndex == size {
        writeIndex := 0;
      }
      count := count + 1;
      contents := contents + [message];
      left := Null;
      assert data[..] == q.data[q.writeIndex := message];
      assert Model() == CQ.Write(q, message).queue;
    }

    /** `read` after its wait: take the oldest message, empty its slot,
        advance the read index, decrement `count`. */
    method Read() returns (m: Handle<T>)
      requires Valid() && count > 0
      modifies this, data
      ensures Valid() && data == old(data)
      ensures Model() == CQ.Read(old(Model())).queue && m == CQ.Read(old(Model())).handle
      ensures [m] + contents == old(contents)
    {
      ghost var q := Model();
      m := data[readIndex];
      data[readIndex] := Null;
      readIndex := readIndex + 1;
      if readIndex == size {
        readIndex := 0;
      }
      count := count - 1;
      contents := contents[1..];
      assert data[..] == q.data[q.readIndex := Null];
      assert Model() == CQ.Read(q).queue;
      assert m == CQ.Read(q).handle;
    }

    /** `try_writing`. */
    method TryWriting(message: Handle<T>) returns (accepted: bool, left: Handle<T>)
      requires Valid()
      modifies this, data
      ensures Valid() && data == old(data)
      ensures accepted <==> old(count) < size
      ensures accepted ==> contents == old(contents) + [message] && left == Null
      ensures accepted ==> Model() == CQ.Write(old(Model()), message).queue
      ensures !accepted ==> Model() == old(Model()) && contents == old(contents) && left == message
    {
      if count < size {
        left := Write(message);
        accepted := true;
      } else {
        accepted, left := false, message;
      }
    }

    /** `try_reading`. */
    method TryReading() returns (m: Handle<T>)
      requires Valid()
      modifies this, data
      ensures Valid() && data == old(data)
      ensures old(count) > 0 ==> [m] + contents == old(contents)
      ensures old(count) > 0 ==> Model() == CQ.Read(old(Model())).queue && m == CQ.Read(old(Model())).handle
      ensures old(count) == 0 ==> Model() == old(Model()) && contents == old(contents) && m == Null
    {
      if count > 0 {
        m := Read();
      } else {
        m := Null;
      }
    }

    /** `timed_write`, run on the state at the instant its wait returned. */
    method TimedWrite(message: Handle<T>) returns (accepted: bool, left: Handle<T>)
      requires Valid()
      modifies this, data
      ensures Valid() && data == old(data)
      ensures !accepted <==> old(count) == size
      ensures accepted ==> contents == old(contents) + [message] && left == Null
      ensures accepted ==> Model() == CQ.Write(old(Model()), message).queue
      ensures !accepted ==> Model() == old(Model()) && contents == old(contents) && left == message
    {
      accepted, left := TryWriting(message);
    }

    /** `timed_read`, run on the state at the instant its wait returned. */
    method TimedRead() returns (m: Handle<T>, timedOut: bool)
      requires Valid()
      modifies this, data
      ensures Valid() && data == old(data)
      ensures timedOut <==> old(count) == 0
      ensures !timedOut ==> [m] + contents == old(contents)
      ensures !timedOut ==> Model() == CQ.Read(old(Model())).queue && m == CQ.Read(old(Model())).handle
      ensures timedOut ==> Model() == old(Model()) && contents == old(contents) && m == Null
    {
      timedOut := count == 0;
      m := TryReading();
    }

    /** `msg_count`. */
    method MsgCount() returns (n: nat)
      requires Valid()
      ensures n == |contents| && n <= size
    {
      n := count;
    }
  }
}
